=== FILE: README.md ===
# Bank transfer service — a Dafny model

This project models the money-transfer rule of the bank service in `12879.java`.
`BankService.transferMoney`:

1. Loads the source and destination accounts through the account DAO.
2. If the source balance is at least the amount, debits the loaded source object, credits the loaded destination object and saves one `Transaction` ledger record.
3. Otherwise, throws "Insufficient funds for transfer".

The model is functional:

- The stored accounts are a `map<AccountId, Account>`.
- The stored ledger of saved `Transaction`s is a `seq<TransferRecord>`. Accounts and ledger together form a `Store`.
- `AccountDAO.getAccount` is a map lookup that may find nothing, which stands for the null the persistence layer returns.
- `AccountDAO.updateAccount` writes an account back under its own id.
- `AccountDAO.saveTransaction` appends to the ledger.
- `TransferMoney` returns the store after the call together with the two account objects the service changed, or an `InsufficientFunds` failure.

Files:

- `wrappers.dfy` — `Option` and `Result`.
- `accounts.dfy` — `Account`, `TransferRecord`, and the DAO operations `GetAccount`, `UpdateAccount` and `SaveTransaction`.
- `balances.dfy` — two independent views of the money:
  - the sum of all balances (`TotalBalance`);
  - the net amount a run of ledger records moved into an account (`NetFlow`).
- `bank_service.dfy` — `TransferMoney` as written, with its one-call properties, and the corrected rules `TransferMoneyChecked` and `TransferAndUpdate` (see Findings).
- `transfer_runs.dfy` — the caller that catches the service's exception (`Attempt`, modelling the `try`/`catch` in `MainApp.main`), and runs of requests against the service as written (`RunAsWritten`) and against the corrected rule (`RunWithUpdate`).

Balances and amounts are `double` in the source. The model uses exact `real`s, so
IEEE-754 rounding is not modelled. Conservation of the total only holds exactly under
this idealisation.

Behaviours of the source that the model keeps:

- The guard is non-strict (`>=`). A transfer of exactly the source balance succeeds and leaves the debited source at 0.
- There is no check on the sign of the amount. There is no check that the two ids differ.
- Both accounts are loaded before either is changed, as two separate objects (assuming each commit closes the session, the assumption the second Findings row names). When the two ids are equal, the service holds one copy debited and one copy credited from the same starting balance. `TransferMoney` returns both copies.
- Each `getAccount` commits its own unit of work before the service changes the object. `transferMoney` never calls `updateAccount`. So the stored accounts keep their balances and only the ledger record is saved (see Findings).
- For an unknown id, `getAccount` returns null. If the source id is unknown, or the destination id is unknown and the source covers the amount, the service throws a `NullPointerException` at the guard or at the credit. If the destination id is unknown and the source does not cover the amount, the guard fails first and the service throws the insufficient-funds exception. Either way nothing is saved, and `Attempt` models the caller that catches the exception.

Choice of the corrected rule only: `TransferAndUpdate` writes the source back first and
the destination last, the order in which the service changes them. On a self-transfer
the stored account therefore ends at the credited copy.

## Model

| member | source | states |
|---|---|---|
| Accounts.GetAccount | 12879.java:286-292 | finds an account exactly when its id is stored; the account found is the stored one and, when accounts are filed under their own key, carries the requested id |
| Accounts.UpdateAccount | 12879.java:294-299 | fails exactly when no stored account has the written account's id; otherwise the account set is unchanged, loading that id gives back the written account, and every other account is untouched |
| Accounts.SaveTransaction | 12879.java:301-306 | the ledger grows by exactly one record, the saved record comes last, and all earlier records are unchanged |
| BankService.TransferMoney | 12879.java:318-331 | succeeds if and only if the source balance is at least the amount; the only failure is InsufficientFunds; on success the loaded source object (same id and holder) loses the amount and the loaded destination object gains it, also when the two ids coincide; exactly one record (from, to, amount) is saved after the unchanged earlier ledger; no stored account is written |
| BankService.TransferNeverOverdrawsSource | 12879.java:322-323 | a successful transfer never leaves the debited source negative; transferring exactly the source balance succeeds and leaves it at 0 |
| BankService.NegativeAmountOverdrawsDestination | 12879.java:322-324 | a negative amount passes the guard: from 10 and 0, transferring -5 succeeds, leaves the objects at 15 and -5, and saves the record |
| BankService.LedgerDivergesFromStoredBalances | 12879.java:319-327 | from stored balances 100 and 0, transferring 100 saves the record (1, 2, 100) while the stored source stays at 100, which is not its start plus the ledger's net flow |
| BankService.TransferMoneyChecked | 12879.java:318-331 | refuses every non-positive amount and behaves exactly as TransferMoney otherwise; on success the destination only gains, and both changed objects are non-negative when all stored balances were |
| BankService.TransferAndUpdate | 12879.java:318-331 | the corrected rule: succeeds if and only if the amount is positive and the source covers it, failing with NonPositiveAmount or InsufficientFunds otherwise; on success one record is appended, the stored source loses the amount (distinct ids), the stored destination gains it, no other account changes, ids and holders stay, accounts stay filed under their own keys, and no balance becomes negative |
| BankService.TransferConservesTotal | 12879.java:323-324 | a successful corrected transfer between distinct accounts leaves the sum of all stored balances unchanged |
| BankService.TransferMatchesLedger | 12879.java:322-327 | after a successful corrected transfer between distinct accounts, every stored balance is its old balance plus what the saved record moved into it |
| BankService.SelfTransferKeepsCreditedCopy | 12879.java:319-327 | a self-transfer of a positive amount the account covers yields a copy debited to old minus amount and a copy credited to old plus amount, and saves one record; the corrected rule stores the credited copy, so the account and the total grow by the amount |
| TransferRuns.Attempt | 12879.java:352-357 | the caller catches the exception: the call goes through if and only if both accounts are stored and the source covers the amount; a missing account or insufficient funds leaves the store exactly as before; stored accounts never change; a success adds the request's record |
| TransferRuns.RunAsWritten | 12879.java:318-331 | over a run of requests against the service as written, the stored accounts never change; each request goes through exactly when the starting balances cover it; the ledger is the old ledger followed by one record per successful request, in request order |
| TransferRuns.AttemptWithUpdate | 12879.java:352-357 | the caught call of the corrected rule: goes through if and only if both accounts are stored, the amount is positive and the source covers it; on failure the store is unchanged; on success the record is appended; accounts stay filed under their own keys and non-negative balances stay non-negative |
| TransferRuns.RunWithUpdate | 12879.java:318-331 | over a run of corrected requests, reports one outcome per request; only a request with a positive amount between stored accounts goes through, and the first is judged against the starting store; the account set is unchanged; the ledger is the old ledger followed by exactly one record per successful request, in request order; no balance becomes negative |
| TransferRuns.RunWithUpdateOutcomes | 12879.java:352-357 | in a corrected run, each request goes through exactly when its caught attempt goes through against the store the earlier requests left behind |
| TransferRuns.RunWithUpdateConservesTotal | 12879.java:323-324 | over any run of corrected transfers between distinct accounts, whatever succeeds or fails, the sum of all stored balances is unchanged |
| TransferRuns.RunWithUpdateMatchesLedger | 12879.java:323-327 | over any run of corrected transfers between distinct accounts, every stored balance ends at its starting balance plus the net amount the new ledger records moved into it |

## Findings

| source | as written | input that shows it | evidently intended | confidence | as-written member | corrected member |
|---|---|---|---|---|---|---|
| 12879.java:322-324 | the only guard compares the source balance with the amount, so a negative amount passes. It credits the source and takes money from the destination, which can go negative | accounts {1: 10.0, 2: 0.0}, transferMoney(1, 2, -5.0) leaves the destination object at -5.0 and saves the record | a transfer moves a positive amount, and no balance goes negative | medium, not executed | BankService.NegativeAmountOverdrawsDestination | BankService.TransferMoneyChecked |
| 12879.java:318-331 | both accounts are loaded in units of work that commit before the change (286-292), and neither is passed to updateAccount (294-299). Only the ledger record is saved (301-306) | accounts {1: 100.0, 2: 0.0}, transferMoney(1, 2, 100.0) saves (1, 2, 100.0) while the stored balances stay 100.0 and 0.0 | the stored balances move with the saved record | medium (assumes each commit ends the session, and that `@Transactional` has no effect on a service built with `new` at 350), not executed | BankService.LedgerDivergesFromStoredBalances | BankService.TransferAndUpdate |

`TransferMoney`, `Attempt` and `RunAsWritten` model the code as written. The
corrected `TransferAndUpdate` applies both fixes: it refuses non-positive amounts
through `TransferMoneyChecked` and writes both accounts back through `UpdateAccount`.
The conservation, ledger-agreement and non-negativity results are proved for it and
for `RunWithUpdate`.

## Left out

- The dependency-injection demo (`Course`, `Student`, `AppConfig`, the first `MainApp` class) and the printing in the second `MainApp.main`: object construction and output only. The `try`/`catch` around the transfer call in the second `MainApp.main` is modelled by `TransferRuns.Attempt`.
- The student CRUD (`StudentEntity`, `StudentDAO`): direct pass-through to the persistence library, with no invariants of its own.
- Session and transaction plumbing (the session factories, `beginTransaction`/`commit`, `@Transactional`). Isolation and concurrency live in libraries that are not part of this model. Each DAO call is one step, and each call that completes is taken as committed.
- Accounts.SaveTransaction: always appends. The `id` field of `Transaction` is an assigned key without a generated value, and the constructor never sets it, so every record is saved with id 0. A second saved record would then collide with the first on the primary key, and that save would fail. The model does not carry the record id, so it does not model that failure.
- BankService.TransferMoney: also succeeds when the ledger already holds a record, although the store would then refuse the id-0 save (see above).
- TransferRuns.Attempt: likewise goes through when the ledger already holds a record, for the same reason.
- TransferRuns.RunAsWritten: the ledger gains one record per successful request. Because of the id-0 collision above, the store would refuse every record after the first.
- BankService.TransferMoney: requires both ids to be stored. For an unknown id the service throws before saving anything: a `NullPointerException` when the source is unknown or the source covers the amount, and the insufficient-funds exception when only the destination is unknown and the source does not cover the amount. That outcome is modelled where it is caught, in `TransferRuns.Attempt`.
- BankService.TransferConservesTotal: stated for distinct ids only, because a corrected self-transfer stores the credited copy and raises the total (see SelfTransferKeepsCreditedCopy).
- BankService.TransferMatchesLedger: stated for distinct ids only. A self-transfer record moves nothing by `Flow`, but the stored account keeps the credited copy.
- TransferRuns.RunWithUpdateConservesTotal: stated for runs of transfers between distinct accounts only, for the same reason.
- TransferRuns.RunWithUpdateMatchesLedger: stated for runs of transfers between distinct accounts only, for the same reason.
- IEEE-754 rounding and NaN: balances and amounts are exact reals.

=== FILE: accounts.dfy ===
/**
 The two persistent entities of the bank (accounts and transfer records) and the
 data-access operations the transfer service uses.

 Balances and amounts are Java `double`s in the source. Here they are exact `real`s:
 the model ignores IEEE-754 rounding, and the conservation results only hold under
 this idealisation.
 */
module Accounts {
  import opened Wrappers

  /** Primary key of an account. */
  type AccountId = int

  /** A bank account: its key, the name of its holder and its balance. */
  datatype Account = Account(id: AccountId, holder: string, balance: real)

  /** A ledger entry recording that `amount` moved from one account to another. */
  datatype TransferRecord = TransferRecord(fromAccountId: AccountId, toAccountId: AccountId, amount: real)

  /** Every account is filed under its own primary key. */
  predicate KeyedById(accounts: map<AccountId, Account>)
  {
    forall id :: id in accounts ==> accounts[id].id == id
  }

  /** Loads an account by primary key; `None` plays the role of the null the
      persistence layer returns for an unknown key. */
  function GetAccount(accounts: map<AccountId, Account>, id: AccountId): (r: Option<Account>)
    ensures r.Some? <==> id in accounts
    ensures r.Some? ==> r.value == accounts[id]
    ensures r.Some? && KeyedById(accounts) ==> r.value.id == id
  {
    if id in accounts then Some(accounts[id]) else None
  }

  /** Writes an account back under its own id. `None` stands for the failure the
      persistence layer raises when no stored row has that id; otherwise only that
      row changes. */
  function UpdateAccount(accounts: map<AccountId, Account>, a: Account): (r: Option<map<AccountId, Account>>)
    ensures r.Some? <==> a.id in accounts
    ensures r.Some? ==> r.value.Keys == accounts.Keys
    ensures r.Some? ==> GetAccount(r.value, a.id) == Some(a)
    ensures r.Some? ==> forall id :: id in accounts && id != a.id ==> r.value[id] == accounts[id]
  {
    if a.id in accounts then Some(accounts[a.id := a]) else None
  }

  /** Writing back an account whose id matches a stored row keeps every
      account filed under its own key. */
  lemma UpdateAccountKeepsKeys(accounts: map<AccountId, Account>, a: Account)
    requires KeyedById(accounts)
    requires a.id in accounts
    ensures UpdateAccount(accounts, a).Some?
    ensures KeyedById(UpdateAccount(accounts, a).value)
  {
  }

  /** Stores a new ledger entry: the ledger is append-only, so the earlier entries
      are kept as they were and the new one comes last. */
  function SaveTransaction(ledger: seq<TransferRecord>, t: TransferRecord): (r: seq<TransferRecord>)
    ensures |r| == |ledger| + 1
    ensures r[..|ledger|] == ledger
    ensures r[|ledger|] == t
  {
    ledger + [t]
  }
}

=== FILE: balances.dfy ===
/**
 Two independent views of how much money an account set holds: the sum of all
 balances, and the net amount the ledger says each account received.
 */
module Balances {
  import opened Accounts

  /** A non-empty account map has a key. */
  lemma NonEmptyHasKey(accounts: map<AccountId, Account>)
    requires |accounts| > 0
    ensures exists id :: id in accounts
  {
    if forall id :: id !in accounts {
      assert false;
    }
  }

  /** Some key of a non-empty account map. */
  ghost function AnyKey(accounts: map<AccountId, Account>): (id: AccountId)
    requires |accounts| > 0
    ensures id in accounts
  {
    NonEmptyHasKey(accounts);
    var k :| k in accounts; k
  }

  /** The sum of the balances of all accounts in the map. */
  ghost function TotalBalance(accounts: map<AccountId, Account>): real
    decreases |accounts|
  {
    if |accounts| == 0 then 0.0
    else
      var id := AnyKey(accounts);
      assert (accounts - {id}).Keys == accounts.Keys - {id};
      accounts[id].balance + TotalBalance(accounts - {id})
  }

  /** The total may be computed by taking out any account first, not only the one
      `AnyKey` chooses. */
  lemma {:induction false} TotalBalanceRemove(accounts: map<AccountId, Account>, id: AccountId)
    requires id in accounts
    ensures TotalBalance(accounts) == accounts[id].balance + TotalBalance(accounts - {id})
    decreases |accounts|
  {
    var k := AnyKey(accounts);
    if k != id {
      var rest := accounts - {k};
      assert rest.Keys == accounts.Keys - {k};
      TotalBalanceRemove(rest, id);
      var others := accounts - {id};
      assert others.Keys == accounts.Keys - {id};
      TotalBalanceRemove(others, k);
      assert rest - {id} == others - {k};
    }
  }

  /** Replacing one account changes the total by exactly the change in its balance. */
  lemma TotalBalanceUpdate(accounts: map<AccountId, Account>, id: AccountId, a: Account)
    requires id in accounts
    ensures TotalBalance(accounts[id := a]) == TotalBalance(accounts) - accounts[id].balance + a.balance
  {
    TotalBalanceRemove(accounts, id);
    TotalBalanceRemove(accounts[id := a], id);
    assert accounts[id := a] - {id} == accounts - {id};
  }

  /** What one ledger entry means for account `id`: plus the amount when `id` is the
      destination, minus it when `id` is the source (nothing when it is both). */
  function Flow(t: TransferRecord, id: AccountId): real
  {
    (if t.toAccountId == id then t.amount else 0.0)
      - (if t.fromAccountId == id then t.amount else 0.0)
  }

  /** The net amount a run of ledger entries moved into account `id`. */
  function NetFlow(ledger: seq<TransferRecord>, id: AccountId): real
    decreases |ledger|
  {
    if ledger == [] then 0.0 else Flow(ledger[0], id) + NetFlow(ledger[1..], id)
  }
}

=== FILE: bank_service.dfy ===
/**
 The money-transfer rule of the bank service.

 The service loads both accounts, checks the source balance against the amount
 (non-strictly), debits the loaded source object, credits the loaded destination
 object and saves one ledger record; otherwise it fails with insufficient funds and
 saves nothing. It has no guard on the sign of the amount and none on the two ids
 being different.

 Each load commits its own unit of work before the service changes the object, and
 the service never writes an account back, so (assuming each commit closes the
 session) the stored accounts keep their balances: only the saved ledger record
 reaches the store. `TransferAndUpdate` is the corrected rule that refuses
 non-positive amounts and writes both accounts back.
 */
module BankService {
  import opened Wrappers
  import opened Accounts
  import opened Balances

  /** The stored accounts, keyed by id, and the stored ledger. */
  datatype Store = Store(accounts: map<AccountId, Account>, ledger: seq<TransferRecord>)

  /** What a completed call leaves behind: the store, and the two account objects the
      service loaded and changed. */
  datatype Transfer = Transfer(store: Store, fromAccount: Account, toAccount: Account)

  /** Why a transfer was refused. `InsufficientFunds` is the only failure of the
      service; `NonPositiveAmount` is raised only by the corrected rule. */
  datatype TransferError = InsufficientFunds | NonPositiveAmount

  /** `b` is the account `a` with the same id and holder. */
  predicate SameHolding(a: Account, b: Account)
  {
    a.id == b.id && a.holder == b.holder
  }

  /** Every balance in the map is non-negative. */
  predicate Solvent(accounts: map<AccountId, Account>)
  {
    forall id :: id in accounts ==> accounts[id].balance >= 0.0
  }

  /** Moves `amount` from one account to another, as the service does.

      The two loads give two separate objects, also when the ids coincide; the debit
      and the credit each apply to the object as loaded. On success the record of the
      call is saved and the stored accounts are left as they were.

      Both ids must name stored accounts. For an unknown id the load yields no
      object. If the source is unknown, or the destination is unknown and the source
      covers the amount, the service fails with a null dereference at the guard or at
      the credit; if the destination is unknown and the source does not cover the
      amount, it fails with insufficient funds. Either way nothing is saved (see
      `TransferRuns.Attempt` for the caller that catches it). */
  function TransferMoney(s: Store, fromAccountId: AccountId, toAccountId: AccountId, amount: real)
    : (r: Result<Transfer, TransferError>)
    requires fromAccountId in s.accounts && toAccountId in s.accounts
    // the guard: succeeds exactly when the source covers the amount
    ensures r.Success? <==> s.accounts[fromAccountId].balance >= amount
    ensures r.Failure? ==> r.error == InsufficientFunds
    // debit and credit of the loaded objects
    ensures r.Success? ==>
              && SameHolding(r.value.fromAccount, s.accounts[fromAccountId])
              && r.value.fromAccount.balance == s.accounts[fromAccountId].balance - amount
    ensures r.Success? ==>
              && SameHolding(r.value.toAccount, s.accounts[toAccountId])
              && r.value.toAccount.balance == s.accounts[toAccountId].balance + amount
    // exactly one record, carrying the call's arguments, is saved
    ensures r.Success? ==> r.value.store.ledger == s.ledger + [TransferRecord(fromAccountId, toAccountId, amount)]
    // no stored account is written
    ensures r.Success? ==> r.value.store.accounts == s.accounts
  {
    var fromAccount := GetAccount(s.accounts, fromAccountId).value;
    var toAccount := GetAccount(s.accounts, toAccountId).value;
    if fromAccount.balance >= amount then
      var debited := fromAccount.(balance := fromAccount.balance - amount);
      var credited := toAccount.(balance := toAccount.balance + amount);
      var ledger := SaveTransaction(s.ledger, TransferRecord(fromAccountId, toAccountId, amount));
      Success(Transfer(Store(s.accounts, ledger), debited, credited))
    else
      Failure(InsufficientFunds)
  }

  /** No overdraft: after a successful transfer the debited source is not negative,
      and a transfer of exactly the source balance succeeds and leaves it at 0. */
  lemma TransferNeverOverdrawsSource(s: Store, fromAccountId: AccountId, toAccountId: AccountId, amount: real)
    requires fromAccountId in s.accounts && toAccountId in s.accounts
    ensures var r := TransferMoney(s, fromAccountId, toAccountId, amount);
            r.Success? ==> r.value.fromAccount.balance >= 0.0
    ensures amount == s.accounts[fromAccountId].balance ==>
              var r := TransferMoney(s, fromAccountId, toAccountId, amount);
              r.Success? && r.value.fromAccount.balance == 0.0
  {
  }

  /** The guard only compares the source balance with the amount, so a negative
      amount passes it, credits the source and takes money from the destination,
      which can leave the destination overdrawn. */
  lemma NegativeAmountOverdrawsDestination()
    ensures var s := Store(map[1 := Account(1, "Alice", 10.0), 2 := Account(2, "Bob", 0.0)], []);
            var r := TransferMoney(s, 1, 2, -5.0);
            && r.Success?
            && r.value.fromAccount.balance == 15.0
            && r.value.toAccount.balance == -5.0
            && r.value.store.ledger == [TransferRecord(1, 2, -5.0)]
  {
  }

  /** The service never writes the changed accounts back, so after a successful
      transfer the saved ledger record says money moved while the stored balances
      say it did not. */
  lemma LedgerDivergesFromStoredBalances()
    ensures var s := Store(map[1 := Account(1, "Alice", 100.0), 2 := Account(2, "Bob", 0.0)], []);
            var r := TransferMoney(s, 1, 2, 100.0);
            && r.Success?
            && r.value.store.ledger == [TransferRecord(1, 2, 100.0)]
            && r.value.store.accounts[1].balance == 100.0
            && r.value.store.accounts[1].balance != s.accounts[1].balance + NetFlow(r.value.store.ledger, 1)
  {
    var s := Store(map[1 := Account(1, "Alice", 100.0), 2 := Account(2, "Bob", 0.0)], []);
    var ledger := [TransferRecord(1, 2, 100.0)];
    assert ledger[1..] == [];
    assert NetFlow(ledger, 1) == -100.0;
  }

  /** The transfer rule with the evidently intended amount check: a non-positive
      amount is refused before anything else; otherwise it behaves as
      `TransferMoney`, and then the destination only gains. */
  function TransferMoneyChecked(s: Store, fromAccountId: AccountId, toAccountId: AccountId, amount: real)
    : (r: Result<Transfer, TransferError>)
    requires fromAccountId in s.accounts && toAccountId in s.accounts
    ensures amount <= 0.0 ==> r == Failure(NonPositiveAmount)
    ensures amount > 0.0 ==> r == TransferMoney(s, fromAccountId, toAccountId, amount)
    ensures r.Success? ==> r.value.toAccount.balance > s.accounts[toAccountId].balance
    ensures r.Success? && Solvent(s.accounts) ==>
              r.value.fromAccount.balance >= 0.0 && r.value.toAccount.balance >= 0.0
  {
    if amount <= 0.0 then Failure(NonPositiveAmount)
    else TransferMoney(s, fromAccountId, toAccountId, amount)
  }

  /** The corrected rule: the checked transfer, after which both changed accounts are
      written back, the source first and the destination last.

      A stored account is written with its own id, so the store must file every
      account under its own key. When the two ids coincide the destination copy is
      written last and is the one the store keeps. */
  function TransferAndUpdate(s: Store, fromAccountId: AccountId, toAccountId: AccountId, amount: real)
    : (r: Result<Store, TransferError>)
    requires fromAccountId in s.accounts && toAccountId in s.accounts
    requires KeyedById(s.accounts)
    ensures r.Success? <==> amount > 0.0 && s.accounts[fromAccountId].balance >= amount
    ensures r.Failure? ==> r.error == (if amount <= 0.0 then NonPositiveAmount else InsufficientFunds)
    ensures r.Success? ==> r.value.ledger == s.ledger + [TransferRecord(fromAccountId, toAccountId, amount)]
    // the store keeps its accounts, each filed under its own key
    ensures r.Success? ==> r.value.accounts.Keys == s.accounts.Keys && KeyedById(r.value.accounts)
    // debit and credit reach the store
    ensures r.Success? && fromAccountId != toAccountId ==>
              r.value.accounts[fromAccountId].balance == s.accounts[fromAccountId].balance - amount
    ensures r.Success? ==>
              r.value.accounts[toAccountId].balance == s.accounts[toAccountId].balance + amount
    // nothing else changes
    ensures r.Success? ==>
              forall id :: id in s.accounts && id != fromAccountId && id != toAccountId ==>
                r.value.accounts[id] == s.accounts[id]
    ensures r.Success? ==>
              forall id :: id in s.accounts ==> SameHolding(r.value.accounts[id], s.accounts[id])
    // no balance goes negative
    ensures r.Success? && Solvent(s.accounts) ==> Solvent(r.value.accounts)
  {
    match TransferMoneyChecked(s, fromAccountId, toAccountId, amount)
    case Failure(e) => Failure(e)
    case Success(t) =>
      UpdateAccountKeepsKeys(t.store.accounts, t.fromAccount);
      var afterDebit := UpdateAccount(t.store.accounts, t.fromAccount).value;
      UpdateAccountKeepsKeys(afterDebit, t.toAccount);
      var afterCredit := UpdateAccount(afterDebit, t.toAccount).value;
      Success(Store(afterCredit, t.store.ledger))
  }

  /** A successful corrected transfer between two different accounts leaves the sum
      of all stored balances unchanged. */
  lemma TransferConservesTotal(s: Store, fromAccountId: AccountId, toAccountId: AccountId, amount: real)
    requires fromAccountId in s.accounts && toAccountId in s.accounts
    requires KeyedById(s.accounts)
    requires fromAccountId != toAccountId
    ensures var r := TransferAndUpdate(s, fromAccountId, toAccountId, amount);
            r.Success? ==> TotalBalance(r.value.accounts) == TotalBalance(s.accounts)
  {
    var r := TransferAndUpdate(s, fromAccountId, toAccountId, amount);
    if r.Success? {
      var fromAccount := s.accounts[fromAccountId];
      var toAccount := s.accounts[toAccountId];
      var debited := fromAccount.(balance := fromAccount.balance - amount);
      var credited := toAccount.(balance := toAccount.balance + amount);
      var afterDebit := s.accounts[fromAccountId := debited];
      TotalBalanceUpdate(s.accounts, fromAccountId, debited);
      TotalBalanceUpdate(afterDebit, toAccountId, credited);
      var after := r.value.accounts;
      assert after[fromAccountId] == debited;
      assert after[toAccountId] == credited;
      assert forall id :: id in after ==> after[id] == afterDebit[toAccountId := credited][id];
      assert after == afterDebit[toAccountId := credited];
    }
  }

  /** After a successful corrected transfer between different accounts, every stored
      balance is its old balance plus what the saved record moved into it: the
      ledger accounts for every balance change. */
  lemma TransferMatchesLedger(s: Store, fromAccountId: AccountId, toAccountId: AccountId, amount: real)
    requires fromAccountId in s.accounts && toAccountId in s.accounts
    requires KeyedById(s.accounts)
    requires fromAccountId != toAccountId
    ensures var r := TransferAndUpdate(s, fromAccountId, toAccountId, amount);
            r.Success? ==>
              forall id :: id in s.accounts ==>
                r.value.accounts[id].balance == s.accounts[id].balance + Flow(r.value.ledger[|s.ledger|], id)
  {
  }

  /** A transfer from an account to itself that passes the guard: the service holds
      two copies of the account, one debited and one credited from the same starting
      balance, and saves one record. Written back source first, the credited copy is
      what the store keeps, so the account and the total both grow by the amount. */
  lemma SelfTransferKeepsCreditedCopy(s: Store, id: AccountId, amount: real)
    requires id in s.accounts
    requires KeyedById(s.accounts)
    requires amount > 0.0 && s.accounts[id].balance >= amount
    ensures var t := TransferMoney(s, id, id, amount);
            && t.Success?
            && t.value.fromAccount.balance == s.accounts[id].balance - amount
            && t.value.toAccount.balance == s.accounts[id].balance + amount
            && t.value.store.ledger == s.ledger + [TransferRecord(id, id, amount)]
    ensures var r := TransferAndUpdate(s, id, id, amount);
            && r.Success?
            && r.value.accounts[id].balance == s.accounts[id].balance + amount
            && TotalBalance(r.value.accounts) == TotalBalance(s.accounts) + amount
  {
    var a := s.accounts[id];
    var credited := a.(balance := a.balance + amount);
    assert TransferAndUpdate(s, id, id, amount).value.accounts == s.accounts[id := credited];
    TotalBalanceUpdate(s.accounts, id, credited);
  }
}

=== FILE: transfer_runs.dfy ===
/**
 Transfers as a caller issues them. A refused transfer, and a request naming an
 account that is not stored, surface as an exception the caller catches, after
 which the store is as it was. For an unknown source, or an unknown destination
 with a source that covers the amount, that exception is a null dereference; for
 an unknown destination with a source that does not cover the amount, the guard
 fails first and it is the insufficient-funds exception.
 A run of requests is attempted one after another, both for the service as written
 and for the corrected rule that writes the accounts back.
 */
module TransferRuns {
  import opened Accounts
  import opened Balances
  import opened BankService

  /** The arguments of one call of the transfer service. */
  datatype TransferRequest = TransferRequest(fromAccountId: AccountId, toAccountId: AccountId, amount: real)

  /** The ledger entry a successful request produces. */
  function RecordOf(q: TransferRequest): TransferRecord
  {
    TransferRecord(q.fromAccountId, q.toAccountId, q.amount)
  }

  /** Both accounts the request names are stored. */
  predicate Names(accounts: map<AccountId, Account>, q: TransferRequest)
  {
    q.fromAccountId in accounts && q.toAccountId in accounts
  }

  /** No request moves money from an account to itself. */
  predicate BetweenDistinctAccounts(qs: seq<TransferRequest>)
  {
    forall i :: 0 <= i < |qs| ==> qs[i].fromAccountId != qs[i].toAccountId
  }

  /** Whether the service as written accepts the request against the stored accounts. */
  predicate Covered(accounts: map<AccountId, Account>, q: TransferRequest)
  {
    Names(accounts, q) && accounts[q.fromAccountId].balance >= q.amount
  }

  /** One call of the service as written, with its exception caught: the new store
      and whether the transfer went through. A missing account or insufficient funds
      leaves the store exactly as it was; a success only adds the saved record. */
  function Attempt(s: Store, q: TransferRequest): (r: (Store, bool))
    ensures r.1 <==> Covered(s.accounts, q)
    ensures !r.1 ==> r.0 == s
    ensures r.0.accounts == s.accounts
    ensures r.1 ==> r.0.ledger == s.ledger + [RecordOf(q)]
  {
    if !Names(s.accounts, q) then (s, false)
    else
      match TransferMoney(s, q.fromAccountId, q.toAccountId, q.amount)
      case Success(t) => (t.store, true)
      case Failure(_) => (s, false)
  }

  /** The ledger entries a run of successful requests produces, in order. */
  function RecordsOf(qs: seq<TransferRequest>): seq<TransferRecord>
  {
    if qs == [] then [] else [RecordOf(qs[0])] + RecordsOf(qs[1..])
  }

  /** The records of two runs of requests, one after the other. */
  lemma {:induction false} RecordsOfAppend(a: seq<TransferRequest>, b: seq<TransferRequest>)
    ensures RecordsOf(a + b) == RecordsOf(a) + RecordsOf(b)
    decreases |a|
  {
    if a == [] {
      assert a + b == b;
    } else {
      assert (a + b)[1..] == a[1..] + b;
      RecordsOfAppend(a[1..], b);
    }
  }

  /** The requests whose outcome flag is set, in order. */
  function Succeeded(qs: seq<TransferRequest>, oks: seq<bool>): seq<TransferRequest>
    requires |oks| == |qs|
  {
    if qs == [] then []
    else (if oks[0] then [qs[0]] else []) + Succeeded(qs[1..], oks[1..])
  }

  /** One attempt followed by a run: the ledger gains the attempt's entry, if any,
      and then the run's entries. */
  lemma LedgerAfterStep(
    l0: seq<TransferRecord>, l1: seq<TransferRecord>, l2: seq<TransferRecord>,
    q: TransferRequest, ok: bool, qs: seq<TransferRequest>, oks: seq<bool>)
    requires |oks| == |qs|
    requires l1 == (if ok then l0 + [RecordOf(q)] else l0)
    requires l2 == l1 + RecordsOf(Succeeded(qs, oks))
    ensures l2 == l0 + RecordsOf(Succeeded([q] + qs, [ok] + oks))
  {
    var later := Succeeded(qs, oks);
    assert ([q] + qs)[1..] == qs;
    assert ([ok] + oks)[1..] == oks;
    if ok {
      assert Succeeded([q] + qs, [ok] + oks) == [q] + later;
      RecordsOfAppend([q], later);
      assert RecordsOf([q]) == [RecordOf(q)] by {
        assert [q][1..] == [];
      }
      assert l0 + [RecordOf(q)] + RecordsOf(later) == l0 + ([RecordOf(q)] + RecordsOf(later));
    } else {
      assert Succeeded([q] + qs, [ok] + oks) == [] + later;
      assert [] + later == later;
    }
  }

  /** Attempts the requests in order against the service as written; returns the
      final store and, for each request, whether it went through. Every call loads
      the same stored balances, since none is written back, so each request goes
      through exactly when it is covered by the starting balances; the ledger gains
      one record per request that went through, in request order. */
  function RunAsWritten(s: Store, qs: seq<TransferRequest>): (r: (Store, seq<bool>))
    ensures r.0.accounts == s.accounts
    ensures |r.1| == |qs|
    ensures forall i :: 0 <= i < |qs| ==> (r.1[i] <==> Covered(s.accounts, qs[i]))
    ensures r.0.ledger == s.ledger + RecordsOf(Succeeded(qs, r.1))
    decreases |qs|
  {
    if qs == [] then (s, [])
    else
      var attempt := Attempt(s, qs[0]);
      var rest := RunAsWritten(attempt.0, qs[1..]);
      LedgerAfterStep(s.ledger, attempt.0.ledger, rest.0.ledger, qs[0], attempt.1, qs[1..], rest.1);
      assert [qs[0]] + qs[1..] == qs;
      var oks := [attempt.1] + rest.1;
      assert forall i :: 1 <= i < |qs| ==> oks[i] == rest.1[i - 1] && qs[i] == qs[1..][i - 1];
      (rest.0, oks)
  }

  /** One call of the corrected rule, with its failure caught. */
  function AttemptWithUpdate(s: Store, q: TransferRequest): (r: (Store, bool))
    requires KeyedById(s.accounts)
    ensures r.1 <==> Covered(s.accounts, q) && q.amount > 0.0
    ensures !r.1 ==> r.0 == s
    ensures r.1 ==> r.0.ledger == s.ledger + [RecordOf(q)]
    ensures r.0.accounts.Keys == s.accounts.Keys && KeyedById(r.0.accounts)
    ensures Solvent(s.accounts) ==> Solvent(r.0.accounts)
  {
    if !Names(s.accounts, q) then (s, false)
    else
      match TransferAndUpdate(s, q.fromAccountId, q.toAccountId, q.amount)
      case Success(s') => (s', true)
      case Failure(_) => (s, false)
  }

  /** Attempts the requests in order against the corrected rule; returns the final
      store and, for each request, whether it went through. The ledger gains exactly
      one record per request that went through, in request order, and no stored
      balance ever becomes negative. */
  function RunWithUpdate(s: Store, qs: seq<TransferRequest>): (r: (Store, seq<bool>))
    requires KeyedById(s.accounts)
    ensures r.0.accounts.Keys == s.accounts.Keys && KeyedById(r.0.accounts)
    ensures |r.1| == |qs|
    ensures r.0.ledger == s.ledger + RecordsOf(Succeeded(qs, r.1))
    ensures Solvent(s.accounts) ==> Solvent(r.0.accounts)
    // only a positive amount between stored accounts goes through; the first
    // request is judged against the starting store
    ensures forall i :: 0 <= i < |qs| && r.1[i] ==> qs[i].amount > 0.0 && Names(s.accounts, qs[i])
    ensures qs != [] ==> r.1[0] == AttemptWithUpdate(s, qs[0]).1
    decreases |qs|
  {
    if qs == [] then (s, [])
    else
      var attempt := AttemptWithUpdate(s, qs[0]);
      var rest := RunWithUpdate(attempt.0, qs[1..]);
      assert [qs[0]] + qs[1..] == qs;
      LedgerAfterStep(s.ledger, attempt.0.ledger, rest.0.ledger, qs[0], attempt.1, qs[1..], rest.1);
      var oks := [attempt.1] + rest.1;
      assert forall i :: 1 <= i < |qs| ==> oks[i] == rest.1[i - 1] && qs[i] == qs[1..][i - 1];
      (rest.0, oks)
  }

  /** Each request of a corrected run goes through exactly when its attempt goes
      through against the store the earlier requests left behind. */
  lemma {:induction false} RunWithUpdateOutcomes(s: Store, qs: seq<TransferRequest>)
    requires KeyedById(s.accounts)
    ensures forall i :: 0 <= i < |qs| ==>
              && KeyedById(RunWithUpdate(s, qs[..i]).0.accounts)
              && RunWithUpdate(s, qs).1[i] == AttemptWithUpdate(RunWithUpdate(s, qs[..i]).0, qs[i]).1
    decreases |qs|
  {
    if qs != [] {
      var s1 := AttemptWithUpdate(s, qs[0]).0;
      RunWithUpdateOutcomes(s1, qs[1..]);
      forall i | 0 <= i < |qs|
        ensures KeyedById(RunWithUpdate(s, qs[..i]).0.accounts)
        ensures RunWithUpdate(s, qs).1[i] == AttemptWithUpdate(RunWithUpdate(s, qs[..i]).0, qs[i]).1
      {
        if i == 0 {
          assert qs[..0] == [];
        } else {
          assert qs[..i][0] == qs[0];
          assert qs[..i][1..] == qs[1..][..i - 1];
          assert RunWithUpdate(s, qs[..i]).0 == RunWithUpdate(s1, qs[1..][..i - 1]).0;
          assert qs[i] == qs[1..][i - 1];
        }
      }
    }
  }

  /** Over any run of corrected transfers between distinct accounts, whether each
      succeeds or fails, the sum of all stored balances is unchanged. */
  lemma {:induction false} RunWithUpdateConservesTotal(s: Store, qs: seq<TransferRequest>)
    requires KeyedById(s.accounts)
    requires BetweenDistinctAccounts(qs)
    ensures TotalBalance(RunWithUpdate(s, qs).0.accounts) == TotalBalance(s.accounts)
    decreases |qs|
  {
    if qs != [] {
      var q := qs[0];
      if Names(s.accounts, q) {
        TransferConservesTotal(s, q.fromAccountId, q.toAccountId, q.amount);
      }
      var s1 := AttemptWithUpdate(s, q).0;
      RunWithUpdateConservesTotal(s1, qs[1..]);
    }
  }

  /** Over any run of corrected transfers between distinct accounts, each account's
      final balance is its starting balance plus the net amount the new ledger
      records moved into it. */
  lemma {:induction false} RunWithUpdateMatchesLedger(s: Store, qs: seq<TransferRequest>)
    requires KeyedById(s.accounts)
    requires BetweenDistinctAccounts(qs)
    ensures var t := RunWithUpdate(s, qs).0;
            forall id :: id in s.accounts ==>
              t.accounts[id].balance == s.accounts[id].balance + NetFlow(t.ledger[|s.ledger|..], id)
    decreases |qs|
  {
    if qs != [] {
      var q := qs[0];
      var (s1, ok) := AttemptWithUpdate(s, q);
      var t := RunWithUpdate(s1, qs[1..]).0;
      assert t == RunWithUpdate(s, qs).0;
      RunWithUpdateMatchesLedger(s1, qs[1..]);
      if ok {
        TransferMatchesLedger(s, q.fromAccountId, q.toAccountId, q.amount);
        var rest := t.ledger[|s1.ledger|..];
        assert t.ledger[|s.ledger|..] == [RecordOf(q)] + rest;
        assert forall id :: id in s.accounts ==>
                 NetFlow(t.ledger[|s.ledger|..], id) == Flow(RecordOf(q), id) + NetFlow(rest, id);
      }
    }
  }
}

=== FILE: wrappers.dfy ===
/** Optional values and operation results shared by the bank model. */
module Wrappers {

  /** A value that may be absent; stands for a Java reference that may be null. */
  datatype Option<+T> = None | Some(value: T)

  /** Either the value an operation produced or the error it raised. */
  datatype Result<+R, +E> = Success(value: R) | Failure(error: E)
}
